=== FILE: README.md ===
# Telemetry store and query engine, modelled in Dafny

This project models the core of a small observability backend (`src/observability.py`):
a store of metric readings, distributed-trace spans and log entries, the write path that
fills it (`record_metric`, `increment`, `start_span`, `end_span`, `log`) and the read path
that answers time-windowed queries (`get_metrics`, `get_logs`), rebuilds a trace with its
waterfall of durations (`get_trace`), assembles a per-service dashboard
(`service_dashboard`, `_find_metric`) and evaluates the fixed alert thresholds
(`alert_rules`).

The SQLite database becomes an immutable `Store` of three sequences, one per table, in
insertion order. SQL `WHERE`, `ORDER BY` and `LIMIT` become `Seqs.Filter`,
`Seqs.SortBy` (a stable insertion sort) and `Seqs.Limit`; case-sensitive
substring containment, `Seqs.Contains`, stands in for `name LIKE '%n%'` (see "Left out"). Every operation is a pure function that takes
the current instant `now` as a parameter. Instants are integers counting microseconds.
The source stores `isoformat()` strings and compares them as text. Those strings come in
two shapes: `YYYY-MM-DDTHH:MM:SS.ffffff`, and `YYYY-MM-DDTHH:MM:SS` when the microsecond is
zero. The short shape is a prefix of every long shape with the same seconds, so it sorts
first among them. Text order is therefore still the chronological order, and integers
model it faithfully. Metric values are `real`. Identifiers that the
source draws with `uuid4` are parameters. An identifier the table already holds makes the
write return `Err(DuplicateKey)`, because the table's primary key would make the insert
raise.

Files, one module each:

- `wrappers.dfy` (`Wrappers`): `Option`, `Result` and the write error.
- `seqs.dfy` (`Seqs`): filter, stable sort, limit and substring search, with their lemmas.
- `telemetry.dfy` (`Telemetry`): the `Metric`, `Span` and `LogEntry` rows, the `Store`, the
  window predicate and the store invariants (unique keys, chronological stamps).
- `ingestion.dfy` (`Ingestion`): the five write operations.
- `traces.dfy` (`Traces`): `get_trace` and its waterfall.
- `queries.dfy` (`Queries`): metric and log queries, `_find_metric` and the dashboard.
- `alerts.dfy` (`Alerts`): the threshold rules.
- `scenarios.dfy` (`Scenarios`): properties that relate a write to the queries reading it back.

Where the code does something other than what a reader of the interface would expect, the
model follows the code:

- `_find_metric` returns the first matching row in the order `get_metrics` yields them.
  That query has no `ORDER BY`, so it yields rows in table order. The model takes table
  order to be insertion order. A dashboard is expected to show the latest reading; this code shows
  the *first one recorded* in the last hour (`Queries.DashboardFieldIsFirstInWindow`).
  The first recorded row need not carry the earliest stamp, because the wall clock can
  go back between writes.
- `end_span` on an unknown span id updates no row and raises nothing. The store comes back
  unchanged; there is no `NotFound` error.
- `record_metric` does not reject non-finite values. Values are exact reals here, so no
  such value exists (see the `Queries.DashboardField` and `Alerts.AlertRules` lines under
  "Left out").
- Metric type, span status and log level are free strings in the code, so they are
  strings here, not enumerations.
- `if name:`, `if service:` and `if level:` treat an empty string like an absent one. So
  `service_dashboard("")` lists error logs of every service. `Queries.ServiceDashboard`
  promises the service match only for a non-empty service name.
- A negative `limit` reaches SQLite's `LIMIT`, which then keeps every row (`Seqs.Limit`).

## Model

| member | source | states |
|---|---|---|
| Ingestion.RecordMetric | src/observability.py:114-131 | Fails exactly when the id is already taken. Otherwise it appends one row carrying the given name, value, labels and type, stamped `now`. Every earlier row and the other two tables stay unchanged. |
| Ingestion.Increment | src/observability.py:133-137 | Appends one row with value 1.0 and type "counter". Earlier rows stay unchanged, so nothing is summed. |
| Ingestion.StartSpan | src/observability.py:139-158 | Fails exactly when the span id is taken. Otherwise it appends one span with the given trace id, or the fresh one when none is given. The new span has the given parent, starts at `now`, has no end, has status "ok" and has empty tags. No other span changes. |
| Ingestion.CloseMatching | src/observability.py:166-169 | The UPDATE as a row map: every row with the span id gets end `now` and the new status and tags. Every other row is kept as it was. |
| Ingestion.EndSpan | src/observability.py:160-170 | Only rows with the matching span id change, and only in end time, status and tags. An unknown id leaves the whole store unchanged. |
| Ingestion.Log | src/observability.py:172-187 | Fails exactly when the id is taken. Otherwise it appends one entry carrying the given fields, stamped `now`, and changes nothing else. |
| Ingestion.RecordMetricKeepsWellformed | src/observability.py:114-131 | When the clock does not go back, recording keeps metric ids unique and no stamp lies in the future. |
| Ingestion.StartSpanKeepsWellformed | src/observability.py:139-158 | When the clock does not go back, starting a span keeps span ids unique and the store chronological. |
| Ingestion.EndSpanKeepsWellformed | src/observability.py:160-170 | When the clock does not go back, ending a span keeps span ids unique, and every ended span then ends no earlier than it started. |
| Ingestion.LogKeepsWellformed | src/observability.py:172-187 | When the clock does not go back, logging keeps log ids unique and the store chronological. |
| Ingestion.EndSpanLastWriteWins | src/observability.py:160-170 | Ending a span twice leaves the same store as ending it once with the second call's arguments. |
| Queries.GetMetrics | src/observability.py:189-207 | A row is returned iff it is stored, is strictly newer than `now - since_minutes`, and its name contains the given non-empty name. The row keeps its multiplicity. |
| Queries.GetMetricsIgnoresLabels | src/observability.py:189-194 | The labels argument does not change the answer. |
| Queries.MatchingLogs | src/observability.py:237-248 | A log row is selected iff it is in the window and its service and level equal the given non-empty filters. |
| Queries.MatchingLogsSkipsEmptyFilters | src/observability.py:240-248 | The `if service:` and `if level:` rule: an absent or empty filter adds no condition, and a non-empty one selects exactly the rows whose service or level equals it. A row is selected iff it is stored, in the window, and passes both. |
| Queries.NewestFirst | src/observability.py:250 | Rows come out in non-increasing timestamp order, as a permutation of the rows given. |
| Queries.GetLogs | src/observability.py:234-256 | Every returned row is stored, in the window and matches the filters. Rows are newest first. There are at most `limit` of them when `limit` is not negative, and no row is returned more often than it is stored. |
| Queries.LimitDropsOnlyOlder | src/observability.py:250 | Cutting a newest-first list drops only rows no newer than every row it keeps. |
| Queries.GetLogsKeepsNewest | src/observability.py:250-256 | Suppose a stored matching row is left out. Then the limit is non-negative and fully used, and every returned row is at least as new as the row left out. |
| Queries.FindMetric | src/observability.py:277-282 | Returns null iff no row has exactly that name. Otherwise it returns the value of a row with that name that no earlier row shares. |
| Queries.FindMetricIgnoresLooserFilter | src/observability.py:260-270 | Two row filters that agree on every row of the looked-up name give the same lookup result. |
| Queries.FoundInWindow | src/observability.py:277-282 | A lookup over any query that keeps every recent row of the exact name is null iff no such row exists. Otherwise the value comes from one of those rows. |
| Queries.DashboardField | src/observability.py:260-270 | A dashboard field is null iff no reading of the last hour is named exactly `service + suffix`. Otherwise it is the value of such a reading. |
| Queries.DashboardFieldIsFirstInWindow | src/observability.py:258-282 | The substring pre-filter hides nothing. A field is the first reading of its exact name among all of the last hour's rows, in table order. |
| Queries.ServiceDashboard | src/observability.py:258-275 | Each of the five fields is the first reading, in table order, of its exact name `service + suffix` among all rows of the last hour, and is null iff there is none. `recent_errors` holds at most 10 stored rows, newest first, each of level "error", from the last hour, and of the given service when that name is non-empty. If a stored error row of a non-empty service from the last hour is left out, the list is full at 10 and every listed row is at least as new as it. |
| Queries.DashboardErrorsAreNewest | src/observability.py:261 | For a non-empty service, an error row of the last hour that the dashboard's log query leaves out means the list holds 10 rows, each at least as new as it. |
| Traces.Waterfall | src/observability.py:219-230 | One entry per span, in the same order, with the same service, operation and status. The duration is end minus start, or `now` minus start while the span is in flight, in milliseconds. |
| Traces.TraceSpans | src/observability.py:211-217 | Exactly the spans of the trace, with their multiplicities, in non-decreasing start order. The result is empty iff no span has that trace id. |
| Traces.GetTrace | src/observability.py:209-232 | The trace's spans in start order, and a waterfall of the same length matching them index by index. An unknown trace yields empty spans and an empty waterfall. |
| Traces.InFlightDurationGrows | src/observability.py:222-224 | Asking again later leaves ended spans' durations unchanged and strictly lengthens in-flight ones. |
| Traces.DurationsNonNegative | src/observability.py:222-224 | In a chronological store every waterfall duration is at least zero. |
| Alerts.Scan | src/observability.py:289-306 | A violation is produced iff some scanned reading breaches a rule. It then carries that reading's name and value with that rule's threshold and severity. |
| Alerts.ScanAppend | src/observability.py:289-306 | Violations follow the readings' order: scanning two batches gives their violations one after the other. |
| Alerts.AlertRules | src/observability.py:284-308 | Every violation comes from a reading of the last 5 minutes and is strictly above its threshold. High is for "error_rate" over 0.05 and medium is for "p99_latency" over 500. Every breaching reading of the window raises its violation, and both rules are checked for each reading. |
| Alerts.ThresholdIsStrict | src/observability.py:291-300 | A reading exactly at a threshold raises nothing for that rule. |
| Scenarios.RecordThenGetMetrics | src/observability.py:189-207 | Take a query issued at the same instant as a write. It returns what it returned before, followed by the new reading when the window is non-empty and the name filter admits that reading. |
| Scenarios.IncrementTwiceKeepsTwoRows | src/observability.py:133-137 | After two increments on the model's empty store (see "Left out" on sample data), querying the name returns two rows of 1.0 of type "counter". |
| Scenarios.TraceOfAppended | src/observability.py:213-217 | When a trace's only span is the one appended last, selecting the trace yields just that span. |
| Scenarios.StartThenGetTrace | src/observability.py:139-158 | Starting a span of a new trace makes that trace exactly one span, which is in flight. |
| Scenarios.EndSpanOfLastRow | src/observability.py:160-170 | Ending the span appended last closes that row and keeps every earlier row. |
| Scenarios.TraceOfSingleSpan | src/observability.py:209-232 | A trace of one span yields that span and one waterfall line for it. |
| Scenarios.EndThenGetTrace | src/observability.py:160-170 | After that span is ended, it is still the trace's only span. It carries the end time, status and tags, and its duration is the milliseconds from start to end. |
| Scenarios.RecordThenAlertRules | src/observability.py:284-308 | A reading recorded now appends its own violations, and only those, to the alert list. |
| Scenarios.GetLogsWithDefaults | src/observability.py:234-256 | `get_logs()` with its defaults returns at most 100 stored rows, all from the last hour, of any service and level. If a recent row is left out, all 100 places are taken by rows at least as new. |
| Scenarios.DashboardOfEmptyStore | src/observability.py:258-282 | On the model's empty store (never presented by the running program, see "Left out") all five dashboard fields are null and `recent_errors` is empty. |
| Scenarios.AlertRulesOfRecent | src/observability.py:287-289 | When every reading is recent, the alert list is the scan of all readings in table order. |
| Scenarios.ErrorRateAlertExample | src/observability.py:290-297 | A recent "gateway.error_rate" reading of 0.10 raises exactly one violation, high, with threshold 0.05. |
| Scenarios.LatencyAlertExample | src/observability.py:299-306 | A recent "gateway.p99_latency_ms" reading of 600 raises exactly one violation, medium, with threshold 500. |
| Scenarios.AtThresholdAlertExample | src/observability.py:289-306 | Readings of exactly 0.05 and exactly 500 raise no violation. |
| Queries.NameMatches | src/observability.py:200-202 | An absent or empty name admits every metric name; a non-empty one admits exactly the names it occurs in at some offset. This is case-sensitive containment standing in for `LIKE '%n%'`. |
| Traces.DurationMs | src/observability.py:222-224 | The duration is the time from start to end, or to `now` for an in-flight span, expressed in milliseconds of the microsecond clock, and it is non-negative iff the span ends (or `now` falls) no earlier than it starts. |
| Alerts.ReadingViolations | src/observability.py:290-306 | One reading raises the high error-rate violation iff it breaches that rule and the medium latency violation iff it breaches that one, nothing else, and the error-rate one first when both fire. |
| Scenarios.OneRecentReadingAlerts | src/observability.py:284-308 | A store holding one recent reading alerts on exactly that reading's violations. |
| Seqs.Filter | src/observability.py:197-202 | A `WHERE` clause: an element is kept iff it satisfies the predicate, with its multiplicity, and nothing else is added. |
| Seqs.SortBy | src/observability.py:213-215 | An `ORDER BY` clause: the result is a permutation of the input in non-decreasing key order. |
| Seqs.Limit | src/observability.py:250-251 | `LIMIT n` keeps a prefix of `min(n, length)` rows, and a negative `n` keeps every row. |

## Left out

- SQLite connections, table creation and row factories (src/observability.py:60-98) are storage I/O. The three tables are sequences here.
- `uuid4` and `datetime.now()` are nondeterministic. Identifiers and the current instant are parameters.
- JSON encoding of labels, tags and fields, and ISO-8601 timestamp strings, are library serialisation. Labels and tags are maps, fields are a map to a small value variant, and instants are integers.
- `_populate_sample_data` (src/observability.py:100-112): the constructor (src/observability.py:56-58) always records these sample readings, three per service (for example `gateway.requests_per_minute`, `gateway.error_rate` and `gateway.p99_latency_ms`), with values keyed on Python's salted `hash()`. They go into a database file that keeps earlier runs' rows (src/observability.py:12). So the running program never presents an empty store, and `service_dashboard("gateway")` has non-null fields right after construction. `Telemetry.EmptyStore` is the model's starting point, not the program's. Every operation and lemma here takes an arbitrary store, and only the scenarios `Scenarios.IncrementTwiceKeepsTwoRows` and `Scenarios.DashboardOfEmptyStore` start from the empty one.
- `main`, argument parsing and printing (src/observability.py:311-344) are a thin command-line wrapper.
- Queries.GetMetrics: `datetime.now() - timedelta(minutes=since_minutes)` raises `OverflowError` when the cut-off falls outside the years 1 to 9999 (roughly `since_minutes` above 1.07e9 or below -4.2e9). The model's integers are unbounded and it answers for every window.
- Queries.GetLogs: the same cut-off overflow applies, and a `limit` outside the signed 64-bit range makes SQLite's parameter binding raise `OverflowError`. The model accepts every window and every integer limit.
- Queries.ServiceDashboard: the source reads the clock twice, once in `get_metrics` and once in `get_logs`. The model uses one `now` for both halves of the dashboard.
- Queries.DashboardField: SQLite stores a NaN value as NULL, so `_find_metric` then returns null although a row of that name exists. The model's values are exact reals with no NaN, so its "null iff no recent reading" holds only for finite values.
- Alerts.AlertRules: a reading whose value came back NULL (a stored NaN) and whose name mentions a rule makes the comparison raise `TypeError`. The model has no such value and always returns a list.
- Default arguments: every model operation takes all its arguments explicitly. The source's defaults are `type` "gauge" in `record_metric`, `status` "ok" in `end_span`, and `since_minutes` 60 and `limit` 100 in the queries. The last two are the constants `Queries.DefaultSinceMinutes` and `Queries.DefaultLogLimit` (used by `Scenarios.GetLogsWithDefaults`). An omitted `labels` or `tags` is the empty map.
- Queries.NameMatches: `LIKE` is case-insensitive for ASCII and treats `%` and `_` in the name as wildcards, so `Gateway` admits `gateway.error_rate` and `a_b` admits `axb`. `NameMatches` uses case-sensitive substring containment and rejects both.
- Queries.GetMetrics: through `Queries.NameMatches`, `LIKE` is case-insensitive for ASCII and treats `%` and `_` in the name as wildcards. The model uses plain case-sensitive substring containment.
- `src/otel_exporter.py` is not part of this model. It builds fixed OTLP/HTTP payloads and posts them over the network.
- Floating-point arithmetic: values and durations are exact reals. The source's `total_seconds() * 1000` may round.
- Traces.GetTrace: the source reads the clock once per in-flight span, so one call may use slightly different instants. The model uses one `now` per call.
- Queries.GetLogs: SQLite leaves the order of rows with equal timestamps unspecified. The model breaks ties by a stable sort, and its contracts promise only the timestamp order.
- Traces.TraceSpans: SQLite leaves the order of spans with equal start times unspecified. The model breaks ties by a stable sort, and its contracts promise only the start-time order.
- Concurrency and durability: every write is one atomic step on an immutable store value.

=== FILE: alerts.dfy ===
/**
 The alert evaluator: a stateless scan of the last five minutes of metric readings
 against two fixed threshold rules. Both rules are checked for every reading.
 */
module Alerts {
  import opened Wrappers
  import opened Telemetry
  import opened Seqs
  import Queries

  datatype Severity = High | Medium

  /** One threshold breach: the reading's name and value, the rule's threshold and severity. */
  datatype Violation = Violation(metric: string, value: real, threshold: real, severity: Severity)

  /** Minutes of readings the evaluator scans. */
  const AlertWindow: int := 5

  const ErrorRateThreshold: real := 0.05
  const P99LatencyThreshold: real := 500.0

  /** The error-rate rule fires: the name mentions "error_rate" and the value is strictly above 5%. */
  predicate BreachesErrorRate(m: Metric) {
    Contains(m.name, "error_rate") && m.value > ErrorRateThreshold
  }

  /** The latency rule fires: the name mentions "p99_latency" and the value is strictly above 500 ms. */
  predicate BreachesP99Latency(m: Metric) {
    Contains(m.name, "p99_latency") && m.value > P99LatencyThreshold
  }

  function ErrorRateViolation(m: Metric): Violation {
    Violation(m.name, m.value, ErrorRateThreshold, High)
  }

  function P99LatencyViolation(m: Metric): Violation {
    Violation(m.name, m.value, P99LatencyThreshold, Medium)
  }

  /** The violations one reading raises: the error-rate one first, then the latency one. */
  function ReadingViolations(m: Metric): (r: seq<Violation>)
    ensures |r| <= 2
    ensures ErrorRateViolation(m) in r <==> BreachesErrorRate(m)
    ensures P99LatencyViolation(m) in r <==> BreachesP99Latency(m)
    ensures forall v :: v in r ==> v == ErrorRateViolation(m) || v == P99LatencyViolation(m)
    ensures |r| == 2 ==> r[0].severity == High && r[1].severity == Medium
  {
    (if BreachesErrorRate(m) then [ErrorRateViolation(m)] else [])
    + (if BreachesP99Latency(m) then [P99LatencyViolation(m)] else [])
  }

  /** The violations of `metrics`, reading by reading in order. */
  function Scan(metrics: seq<Metric>): (r: seq<Violation>)
    ensures forall v :: v in r <==>
      exists m :: (m in metrics &&
                   ((BreachesErrorRate(m) && v == ErrorRateViolation(m))
                    || (BreachesP99Latency(m) && v == P99LatencyViolation(m))))
  {
    if |metrics| == 0 then []
    else
      assert metrics == [metrics[0]] + metrics[1..];
      ReadingViolations(metrics[0]) + Scan(metrics[1..])
  }

  /** Scanning two batches one after the other yields their violations one after the other. */
  lemma {:induction false} ScanAppend(a: seq<Metric>, b: seq<Metric>)
    ensures Scan(a + b) == Scan(a) + Scan(b)
  {
    if |a| == 0 {
      assert a + b == b;
    } else {
      assert (a + b)[1..] == a[1..] + b;
      ScanAppend(a[1..], b);
    }
  }

  /** Scanning one reading yields that reading's violations. */
  lemma ScanOne(m: Metric)
    ensures Scan([m]) == ReadingViolations(m)
  {
    assert [m][1..] == [];
  }

  /** `alert_rules`: the violations of the last five minutes' readings, in table order. */
  function AlertRules(s: Store, now: int): (r: seq<Violation>)
    ensures forall v :: v in r ==>
      exists m :: (m in s.metrics && InWindow(m.timestamp, AlertWindow, now)
                   && v.metric == m.name && v.value == m.value)
    ensures forall v :: v in r ==>
      || (v.severity == High && v.threshold == ErrorRateThreshold && v.value > v.threshold && Contains(v.metric, "error_rate"))
      || (v.severity == Medium && v.threshold == P99LatencyThreshold && v.value > v.threshold && Contains(v.metric, "p99_latency"))
    ensures forall m :: m in s.metrics && InWindow(m.timestamp, AlertWindow, now) && BreachesErrorRate(m) ==>
      ErrorRateViolation(m) in r
    ensures forall m :: m in s.metrics && InWindow(m.timestamp, AlertWindow, now) && BreachesP99Latency(m) ==>
      P99LatencyViolation(m) in r
  {
    Scan(Queries.GetMetrics(s, None, map[], AlertWindow, now))
  }

  /** A reading exactly at a threshold raises nothing for that rule. */
  lemma ThresholdIsStrict(m: Metric)
    requires m.value == ErrorRateThreshold || m.value == P99LatencyThreshold
    ensures m.value == ErrorRateThreshold ==> forall v :: v in ReadingViolations(m) ==> v.severity == Medium
    ensures m.value == P99LatencyThreshold ==> forall v :: v in ReadingViolations(m) ==> v.severity == High
  {
  }
}

=== FILE: ingestion.dfy ===
/**
 The write path. Every write is stamped with `now`. Identifiers that the running
 system draws at random are parameters here; an identifier the table already holds
 makes the insert fail with `DuplicateKey`, as the table's primary key would.
 */
module Ingestion {
  import opened Wrappers
  import opened Telemetry

  /** `record_metric`: appends one metric row stamped with `now`. */
  function RecordMetric(s: Store, id: string, name: string, value: real,
                        labels: map<string, string>, kind: string, now: int): (r: Result<Store>)
    ensures r.Err? <==> MetricIdTaken(s, id)
    ensures r.Err? ==> r.error == DuplicateKey(id)
    ensures r.Ok? ==>
      && r.value.spans == s.spans && r.value.logs == s.logs
      && |r.value.metrics| == |s.metrics| + 1
      && r.value.metrics[..|s.metrics|] == s.metrics
      && var m := r.value.metrics[|s.metrics|];
         m.id == id && m.name == name && m.value == value && m.labels == labels
         && m.timestamp == now && m.kind == kind
  {
    if MetricIdTaken(s, id) then Err(DuplicateKey(id))
    else Ok(s.(metrics := s.metrics + [Metric(id, name, value, labels, now, kind)]))
  }

  /** `increment`: records one reading of 1.0 of kind "counter"; earlier readings are not summed into it. */
  function Increment(s: Store, id: string, name: string, labels: map<string, string>, now: int): (r: Result<Store>)
    ensures r.Err? <==> MetricIdTaken(s, id)
    ensures r.Ok? ==>
      && r.value.spans == s.spans && r.value.logs == s.logs
      && |r.value.metrics| == |s.metrics| + 1
      && r.value.metrics[..|s.metrics|] == s.metrics
      && r.value.metrics[|s.metrics|] == Metric(id, name, 1.0, labels, now, "counter")
  {
    RecordMetric(s, id, name, 1.0, labels, "counter", now)
  }

  /** The trace a new span joins: the given one, or the freshly drawn one when none is given. */
  function ChosenTrace(traceId: Option<string>, freshTraceId: string): string {
    match traceId
    case Some(t) => t
    case None => freshTraceId
  }

  /** `start_span`: inserts one in-flight span with status "ok" and no tags. */
  function StartSpan(s: Store, service: string, operation: string, traceId: Option<string>,
                     parentSpanId: Option<string>, freshTraceId: string, spanId: string,
                     now: int): (r: Result<Store>)
    ensures r.Err? <==> SpanIdTaken(s, spanId)
    ensures r.Err? ==> r.error == DuplicateKey(spanId)
    ensures r.Ok? ==>
      && r.value.metrics == s.metrics && r.value.logs == s.logs
      && |r.value.spans| == |s.spans| + 1
      && r.value.spans[..|s.spans|] == s.spans
      && var sp := r.value.spans[|s.spans|];
         && (traceId.Some? ==> sp.traceId == traceId.value)
         && (traceId.None? ==> sp.traceId == freshTraceId)
         && sp.spanId == spanId && sp.parentSpanId == parentSpanId
         && sp.service == service && sp.operation == operation
         && sp.startTs == now && sp.endTs.None? && sp.status == "ok" && sp.tags == map[]
  {
    if SpanIdTaken(s, spanId) then Err(DuplicateKey(spanId))
    else
      var sp := Span(ChosenTrace(traceId, freshTraceId), spanId, parentSpanId, service, operation,
                     now, None, "ok", map[]);
      Ok(s.(spans := s.spans + [sp]))
  }

  /** A span after `end_span`: only its end time, status and tags change. */
  function Closed(sp: Span, status: string, tags: map<string, string>, now: int): Span {
    sp.(endTs := Some(now), status := status, tags := tags)
  }

  /** The span table after `UPDATE ... WHERE span_id = spanId`: every matching row is closed. */
  function CloseMatching(spans: seq<Span>, spanId: string, status: string,
                         tags: map<string, string>, now: int): (r: seq<Span>)
    ensures |r| == |spans|
    ensures forall i :: 0 <= i < |spans| && spans[i].spanId != spanId ==> r[i] == spans[i]
    ensures forall i :: 0 <= i < |spans| && spans[i].spanId == spanId ==>
      r[i] == Closed(spans[i], status, tags, now)
  {
    if |spans| == 0 then []
    else
      var head := if spans[0].spanId == spanId then Closed(spans[0], status, tags, now) else spans[0];
      [head] + CloseMatching(spans[1..], spanId, status, tags, now)
  }

  /**
   `end_span`: closes the span with the given id at `now`. An unknown id updates no
   row and raises nothing, so the store comes back unchanged.
   */
  function EndSpan(s: Store, spanId: string, status: string, tags: map<string, string>, now: int): (r: Store)
    ensures r.metrics == s.metrics && r.logs == s.logs
    ensures |r.spans| == |s.spans|
    ensures forall i :: 0 <= i < |s.spans| && s.spans[i].spanId != spanId ==> r.spans[i] == s.spans[i]
    ensures forall i :: 0 <= i < |s.spans| && s.spans[i].spanId == spanId ==>
      && r.spans[i].traceId == s.spans[i].traceId
      && r.spans[i].spanId == spanId
      && r.spans[i].parentSpanId == s.spans[i].parentSpanId
      && r.spans[i].service == s.spans[i].service
      && r.spans[i].operation == s.spans[i].operation
      && r.spans[i].startTs == s.spans[i].startTs
      && r.spans[i].endTs == Some(now)
      && r.spans[i].status == status
      && r.spans[i].tags == tags
    ensures !SpanIdTaken(s, spanId) ==> r == s
  {
    var spans := CloseMatching(s.spans, spanId, status, tags, now);
    assert !SpanIdTaken(s, spanId) ==> spans == s.spans;
    s.(spans := spans)
  }

  /** `log`: appends one log entry stamped with `now`. */
  function Log(s: Store, id: string, service: string, level: string, message: string,
               traceId: Option<string>, fields: map<string, FieldValue>, now: int): (r: Result<Store>)
    ensures r.Err? <==> LogIdTaken(s, id)
    ensures r.Err? ==> r.error == DuplicateKey(id)
    ensures r.Ok? ==>
      && r.value.metrics == s.metrics && r.value.spans == s.spans
      && |r.value.logs| == |s.logs| + 1
      && r.value.logs[..|s.logs|] == s.logs
      && var l := r.value.logs[|s.logs|];
         l.id == id && l.service == service && l.level == level && l.message == message
         && l.timestamp == now && l.traceId == traceId && l.fields == fields
  {
    if LogIdTaken(s, id) then Err(DuplicateKey(id))
    else Ok(s.(logs := s.logs + [LogEntry(id, service, level, message, now, traceId, fields)]))
  }

  // Every write keeps the store well-formed when the clock does not run backwards.

  lemma RecordMetricKeepsWellformed(s: Store, id: string, name: string, value: real,
                                    labels: map<string, string>, kind: string, before: int, now: int)
    requires Wellformed(s, before) && before <= now
    ensures RecordMetric(s, id, name, value, labels, kind, now).Ok? ==>
      Wellformed(RecordMetric(s, id, name, value, labels, kind, now).value, now)
  {
  }

  lemma StartSpanKeepsWellformed(s: Store, service: string, operation: string, traceId: Option<string>,
                                 parentSpanId: Option<string>, freshTraceId: string, spanId: string,
                                 before: int, now: int)
    requires Wellformed(s, before) && before <= now
    ensures StartSpan(s, service, operation, traceId, parentSpanId, freshTraceId, spanId, now).Ok? ==>
      Wellformed(StartSpan(s, service, operation, traceId, parentSpanId, freshTraceId, spanId, now).value, now)
  {
  }

  lemma EndSpanKeepsWellformed(s: Store, spanId: string, status: string, tags: map<string, string>,
                               before: int, now: int)
    requires Wellformed(s, before) && before <= now
    ensures Wellformed(EndSpan(s, spanId, status, tags, now), now)
  {
  }

  lemma LogKeepsWellformed(s: Store, id: string, service: string, level: string, message: string,
                           traceId: Option<string>, fields: map<string, FieldValue>, before: int, now: int)
    requires Wellformed(s, before) && before <= now
    ensures Log(s, id, service, level, message, traceId, fields, now).Ok? ==>
      Wellformed(Log(s, id, service, level, message, traceId, fields, now).value, now)
  {
  }

  /** Ending a span twice keeps only the second call's end time, status and tags (last write wins). */
  lemma EndSpanLastWriteWins(s: Store, spanId: string, status1: string, tags1: map<string, string>, t1: int,
                             status2: string, tags2: map<string, string>, t2: int)
    ensures EndSpan(EndSpan(s, spanId, status1, tags1, t1), spanId, status2, tags2, t2)
         == EndSpan(s, spanId, status2, tags2, t2)
  {
  }
}

=== FILE: queries.dfy ===
/**
 The query layer: time-windowed metric and log queries, the first-recorded-value lookup
 by exact metric name, and the per-service dashboard built from them.
 */
module Queries {
  import opened Wrappers
  import opened Telemetry
  import opened Seqs

  /** The window, in minutes, of `get_metrics` and `get_logs` when their caller names none. */
  const DefaultSinceMinutes: int := 60

  /** The row limit of `get_logs` when its caller names none. */
  const DefaultLogLimit: int := 100

  /**
   The optional name filter of `get_metrics` (`name LIKE '%n%'`): an absent name filters
   nothing, and a given one admits exactly the names it occurs in at some offset.
   */
  predicate NameMatches(name: Option<string>, metricName: string)
    ensures name.None? ==> NameMatches(name, metricName)
    ensures name.Some? ==> (NameMatches(name, metricName) <==> exists i :: OccursAt(metricName, name.value, i))
  {
    match name
    case None => true
    case Some(n) => ContainsAt(metricName, n); assert n == [] ==> OccursAt(metricName, n, 0); n == [] || Contains(metricName, n)
  }

  /**
   An optional equality filter of `get_logs`: an absent or empty value filters nothing,
   and a non-empty one admits that exact value only.
   */
  predicate FieldMatches(wanted: Option<string>, actual: string) {
    match wanted
    case None => true
    case Some(w) => w == [] || actual == w
  }

  /**
   `get_metrics`: the metric rows newer than `sinceMinutes` before `now`, narrowed to
   names containing `name`, in table order. `labels` is accepted and ignored.
   */
  function GetMetrics(s: Store, name: Option<string>, labels: map<string, string>,
                      sinceMinutes: int, now: int): (r: seq<Metric>)
    ensures forall m :: m in r <==>
      m in s.metrics && InWindow(m.timestamp, sinceMinutes, now) && NameMatches(name, m.name)
    ensures forall m :: multiset(r)[m] ==
                        if InWindow(m.timestamp, sinceMinutes, now) && NameMatches(name, m.name)
                        then multiset(s.metrics)[m] else 0
  {
    Filter(s.metrics, MetricSelector(name, sinceMinutes, now))
  }

  /** The `WHERE` clause of `get_metrics` as a row predicate. */
  function MetricSelector(name: Option<string>, sinceMinutes: int, now: int): Metric -> bool {
    (m: Metric) => InWindow(m.timestamp, sinceMinutes, now) && NameMatches(name, m.name)
  }

  /** The labels argument has no effect on the answer. */
  lemma GetMetricsIgnoresLabels(s: Store, name: Option<string>, labels1: map<string, string>,
                                labels2: map<string, string>, sinceMinutes: int, now: int)
    ensures GetMetrics(s, name, labels1, sinceMinutes, now) == GetMetrics(s, name, labels2, sinceMinutes, now)
  {
  }

  /** A log row satisfies the time window and the service and level filters of `get_logs`. */
  predicate LogMatches(l: LogEntry, service: Option<string>, level: Option<string>, sinceMinutes: int, now: int) {
    InWindow(l.timestamp, sinceMinutes, now) && FieldMatches(service, l.service) && FieldMatches(level, l.level)
  }

  /** All log rows `get_logs` selects before ordering and limiting, in table order. */
  function MatchingLogs(s: Store, service: Option<string>, level: Option<string>,
                        sinceMinutes: int, now: int): (r: seq<LogEntry>)
    ensures forall l :: l in r <==> l in s.logs && LogMatches(l, service, level, sinceMinutes, now)
    ensures forall l :: multiset(r)[l] ==
                        if LogMatches(l, service, level, sinceMinutes, now) then multiset(s.logs)[l] else 0
  {
    Filter(s.logs, (l: LogEntry) => LogMatches(l, service, level, sinceMinutes, now))
  }

  /**
   The `if service:` and `if level:` rule of `get_logs`: an absent or empty filter adds no
   condition, and a non-empty one selects the rows whose field equals it exactly.
   */
  lemma MatchingLogsSkipsEmptyFilters(s: Store, service: Option<string>, level: Option<string>,
                                      sinceMinutes: int, now: int)
    ensures forall l :: l in MatchingLogs(s, service, level, sinceMinutes, now) <==>
      && l in s.logs && InWindow(l.timestamp, sinceMinutes, now)
      && (service.None? || service.value == [] || l.service == service.value)
      && (level.None? || level.value == [] || l.level == level.value)
  {
  }

  /** The matching rows newest first. */
  function NewestFirst(logs: seq<LogEntry>): (r: seq<LogEntry>)
    ensures multiset(r) == multiset(logs)
    ensures forall l :: l in r <==> l in logs
    ensures forall i, j :: 0 <= i < j < |r| ==> r[i].timestamp >= r[j].timestamp
  {
    var sorted := SortBy(logs, (l: LogEntry) => -l.timestamp);
    assert forall i, j :: 0 <= i < j < |sorted| ==> -sorted[i].timestamp <= -sorted[j].timestamp;
    assert forall l :: l in sorted <==> l in logs by {
      forall l ensures l in sorted <==> l in logs {
        assert l in sorted <==> l in multiset(sorted);
        assert l in logs <==> l in multiset(logs);
      }
    }
    sorted
  }

  /** `get_logs`: matching rows ordered by timestamp descending, cut to `limit` (a negative limit keeps all). */
  function GetLogs(s: Store, service: Option<string>, level: Option<string>,
                   sinceMinutes: int, limit: int, now: int): (r: seq<LogEntry>)
    ensures forall i :: 0 <= i < |r| ==> r[i] in s.logs && LogMatches(r[i], service, level, sinceMinutes, now)
    ensures forall i, j :: 0 <= i < j < |r| ==> r[i].timestamp >= r[j].timestamp
    ensures 0 <= limit ==> |r| <= limit
    ensures forall l :: multiset(r)[l] <= multiset(s.logs)[l]
  {
    GetLogsFacts(s, service, level, sinceMinutes, now, limit);
    Limit(NewestFirst(MatchingLogs(s, service, level, sinceMinutes, now)), limit)
  }

  /** The sorted matching rows are stored matching rows, and any cut of them is drawn from the table. */
  lemma GetLogsFacts(s: Store, service: Option<string>, level: Option<string>, sinceMinutes: int, now: int,
                     limit: int)
    ensures forall i :: 0 <= i < |NewestFirst(MatchingLogs(s, service, level, sinceMinutes, now))| ==>
      var l := NewestFirst(MatchingLogs(s, service, level, sinceMinutes, now))[i];
      l in s.logs && LogMatches(l, service, level, sinceMinutes, now)
    ensures forall l :: multiset(Limit(NewestFirst(MatchingLogs(s, service, level, sinceMinutes, now)), limit))[l]
                        <= multiset(s.logs)[l]
  {
    var all := MatchingLogs(s, service, level, sinceMinutes, now);
    var sorted := NewestFirst(all);
    forall i | 0 <= i < |sorted| ensures sorted[i] in s.logs && LogMatches(sorted[i], service, level, sinceMinutes, now) {
      assert sorted[i] in sorted;
    }
    forall l ensures multiset(Limit(sorted, limit))[l] <= multiset(s.logs)[l] {
      assert multiset(Limit(sorted, limit))[l] <= multiset(sorted)[l];
      assert multiset(sorted)[l] == multiset(all)[l];
    }
  }

  /**
   The rows `get_logs` keeps are the newest matching ones: every matching row it drops
   is no newer than any row it keeps, and no row is dropped when the limit allows it.
   */
  lemma GetLogsKeepsNewest(s: Store, service: Option<string>, level: Option<string>,
                           sinceMinutes: int, limit: int, now: int, dropped: LogEntry)
    ensures dropped in s.logs && LogMatches(dropped, service, level, sinceMinutes, now)
            && dropped !in GetLogs(s, service, level, sinceMinutes, limit, now) ==>
      && 0 <= limit && |GetLogs(s, service, level, sinceMinutes, limit, now)| == limit
      && forall l :: l in GetLogs(s, service, level, sinceMinutes, limit, now) ==> dropped.timestamp <= l.timestamp
  {
    if dropped in s.logs && LogMatches(dropped, service, level, sinceMinutes, now)
       && dropped !in GetLogs(s, service, level, sinceMinutes, limit, now) {
      var all := MatchingLogs(s, service, level, sinceMinutes, now);
      var sorted := NewestFirst(all);
      assert multiset(sorted)[dropped] == multiset(s.logs)[dropped];
      assert multiset(Limit(sorted, limit))[dropped] == 0;
      LimitDropsOnlyOlder(sorted, limit, dropped);
    }
  }

  /** Cutting a newest-first list drops nothing newer than what it keeps. */
  lemma LimitDropsOnlyOlder(sorted: seq<LogEntry>, limit: int, dropped: LogEntry)
    requires forall i, j :: 0 <= i < j < |sorted| ==> sorted[i].timestamp >= sorted[j].timestamp
    requires multiset(Limit(sorted, limit))[dropped] < multiset(sorted)[dropped]
    ensures 0 <= limit && |Limit(sorted, limit)| == limit
    ensures forall l :: l in Limit(sorted, limit) ==> dropped.timestamp <= l.timestamp
  {
    var r := Limit(sorted, limit);
    assert sorted == r + sorted[|r|..];
    assert multiset(sorted) == multiset(r) + multiset(sorted[|r|..]);
    assert dropped in sorted[|r|..];
    var j :| |r| <= j < |sorted| && sorted[j] == dropped;
    forall l | l in r ensures dropped.timestamp <= l.timestamp {
      var i :| 0 <= i < |r| && r[i] == l;
      assert sorted[i] == l;
    }
  }

  /** `_find_metric`: the value of the first row named exactly `name`, or `None` when no row has that name. */
  function FindMetric(metrics: seq<Metric>, name: string): (r: Option<real>)
    ensures r.None? <==> forall i :: 0 <= i < |metrics| ==> metrics[i].name != name
    ensures r.Some? ==> exists i :: (0 <= i < |metrics| && metrics[i].name == name && metrics[i].value == r.value
                                     && forall j :: 0 <= j < i ==> metrics[j].name != name)
  {
    if |metrics| == 0 then None
    else if metrics[0].name == name then Some(metrics[0].value)
    else FindMetric(metrics[1..], name)
  }

  /**
   Narrowing the rows with a filter that keeps every row named `name` does not change
   what the lookup finds.
   */
  lemma {:induction false} FindMetricIgnoresLooserFilter(metrics: seq<Metric>, p: Metric -> bool,
                                                         q: Metric -> bool, name: string)
    requires forall m: Metric :: m.name == name ==> (p(m) <==> q(m))
    ensures FindMetric(Filter(metrics, p), name) == FindMetric(Filter(metrics, q), name)
  {
    if |metrics| > 0 {
      var m := metrics[0];
      var fp, fq := Filter(metrics[1..], p), Filter(metrics[1..], q);
      FindMetricIgnoresLooserFilter(metrics[1..], p, q, name);
      assert Filter(metrics, p) == if p(m) then [m] + fp else fp;
      assert Filter(metrics, q) == if q(m) then [m] + fq else fq;
      if m.name != name {
        FindMetricSkips(m, fp, name);
        FindMetricSkips(m, fq, name);
      }
    }
  }

  /** A leading row with another name does not affect the lookup. */
  lemma FindMetricSkips(m: Metric, rest: seq<Metric>, name: string)
    requires m.name != name
    ensures FindMetric([m] + rest, name) == FindMetric(rest, name)
  {
  }

  /** The five metric fields of a dashboard; `None` means no reading, never zero. */
  datatype DashboardMetrics = DashboardMetrics(
    requestsPerMinute: Option<real>,
    errorRate: Option<real>,
    p50Latency: Option<real>,
    p95Latency: Option<real>,
    p99Latency: Option<real>)

  datatype Dashboard = Dashboard(service: string, metrics: DashboardMetrics, recentErrors: seq<LogEntry>)

  /** Minutes the dashboard looks back. */
  const DashboardWindow: int := 60

  /** Most error logs the dashboard lists. */
  const DashboardErrorLimit: int := 10

  /** Some metric row of the last hour is named exactly `name`. */
  predicate HasRecentReading(s: Store, name: string, now: int) {
    exists m :: m in s.metrics && InWindow(m.timestamp, DashboardWindow, now) && m.name == name
  }

  /**
   The dashboard value for `service + suffix`: the first reading of that exact name among
   the last hour's rows, scanned in table order.
   */
  function DashboardField(s: Store, service: string, suffix: string, now: int): (r: Option<real>)
    ensures r.None? <==> !HasRecentReading(s, service + suffix, now)
    ensures r.Some? ==> exists m :: (m in s.metrics && InWindow(m.timestamp, DashboardWindow, now)
                                     && m.name == service + suffix && m.value == r.value)
  {
    var metrics := GetMetrics(s, Some(service), map[], DashboardWindow, now);
    ContainsPrefix(service, suffix);
    FoundInWindow(s, metrics, service + suffix, now);
    FindMetric(metrics, service + suffix)
  }

  /** A lookup over a query that kept every recent row of the exact name answers for all of the last hour. */
  lemma FoundInWindow(s: Store, metrics: seq<Metric>, name: string, now: int)
    requires forall m :: m in metrics ==> m in s.metrics && InWindow(m.timestamp, DashboardWindow, now)
    requires forall m :: m in s.metrics && InWindow(m.timestamp, DashboardWindow, now) && m.name == name ==> m in metrics
    ensures FindMetric(metrics, name).None? <==> !HasRecentReading(s, name, now)
    ensures FindMetric(metrics, name).Some? ==>
      exists m :: (m in s.metrics && InWindow(m.timestamp, DashboardWindow, now)
                   && m.name == name && m.value == FindMetric(metrics, name).value)
  {
    var r := FindMetric(metrics, name);
    if r.Some? {
      var i :| 0 <= i < |metrics| && metrics[i].name == name && metrics[i].value == r.value;
      assert metrics[i] in metrics;
    }
  }

  /** The dashboard's time window as a row predicate: readings of the last hour. */
  function LastHour(now: int): Metric -> bool {
    (m: Metric) => InWindow(m.timestamp, DashboardWindow, now)
  }

  /**
   The service-name pre-filter never hides a reading: the field is the first reading of
   the exact name among all of the last hour's rows, in table order.
   */
  lemma DashboardFieldIsFirstInWindow(s: Store, service: string, suffix: string, now: int)
    ensures DashboardField(s, service, suffix, now) == FindMetric(Filter(s.metrics, LastHour(now)), service + suffix)
  {
    ContainsPrefix(service, suffix);
    FindMetricIgnoresLooserFilter(s.metrics,
      (m: Metric) => InWindow(m.timestamp, DashboardWindow, now) && NameMatches(Some(service), m.name),
      LastHour(now),
      service + suffix);
  }

  /**
   The error list of a named service holds the newest errors: a stored error of the last
   hour that it leaves out means the list is full and every listed error is at least as new.
   */
  lemma DashboardErrorsAreNewest(s: Store, service: string, now: int)
    ensures forall dropped ::
      (&& dropped in s.logs && service != [] && dropped.service == service && dropped.level == "error"
       && InWindow(dropped.timestamp, DashboardWindow, now)
       && dropped !in GetLogs(s, Some(service), Some("error"), DashboardWindow, DashboardErrorLimit, now)) ==>
      && |GetLogs(s, Some(service), Some("error"), DashboardWindow, DashboardErrorLimit, now)| == DashboardErrorLimit
      && forall l :: l in GetLogs(s, Some(service), Some("error"), DashboardWindow, DashboardErrorLimit, now) ==>
           dropped.timestamp <= l.timestamp
  {
    forall dropped: LogEntry | dropped in s.logs {
      GetLogsKeepsNewest(s, Some(service), Some("error"), DashboardWindow, DashboardErrorLimit, now, dropped);
    }
  }

  /** The five metric fields of the dashboard: first readings of the last hour by exact name. */
  function ServiceMetrics(s: Store, service: string, now: int): (r: DashboardMetrics)
    ensures r.requestsPerMinute == FindMetric(Filter(s.metrics, LastHour(now)), service + ".requests_per_minute")
    ensures r.errorRate == FindMetric(Filter(s.metrics, LastHour(now)), service + ".error_rate")
    ensures r.p50Latency == FindMetric(Filter(s.metrics, LastHour(now)), service + ".p50_latency_ms")
    ensures r.p95Latency == FindMetric(Filter(s.metrics, LastHour(now)), service + ".p95_latency_ms")
    ensures r.p99Latency == FindMetric(Filter(s.metrics, LastHour(now)), service + ".p99_latency_ms")
    ensures r.requestsPerMinute.None? <==> !HasRecentReading(s, service + ".requests_per_minute", now)
    ensures r.errorRate.None? <==> !HasRecentReading(s, service + ".error_rate", now)
    ensures r.p50Latency.None? <==> !HasRecentReading(s, service + ".p50_latency_ms", now)
    ensures r.p95Latency.None? <==> !HasRecentReading(s, service + ".p95_latency_ms", now)
    ensures r.p99Latency.None? <==> !HasRecentReading(s, service + ".p99_latency_ms", now)
  {
    DashboardFieldIsFirstInWindow(s, service, ".requests_per_minute", now);
    DashboardFieldIsFirstInWindow(s, service, ".error_rate", now);
    DashboardFieldIsFirstInWindow(s, service, ".p50_latency_ms", now);
    DashboardFieldIsFirstInWindow(s, service, ".p95_latency_ms", now);
    DashboardFieldIsFirstInWindow(s, service, ".p99_latency_ms", now);
    DashboardMetrics(
      DashboardField(s, service, ".requests_per_minute", now),
      DashboardField(s, service, ".error_rate", now),
      DashboardField(s, service, ".p50_latency_ms", now),
      DashboardField(s, service, ".p95_latency_ms", now),
      DashboardField(s, service, ".p99_latency_ms", now))
  }

  /** The error list of the dashboard: the newest error rows of the last hour, at most ten. */
  function RecentErrors(s: Store, service: string, now: int): (r: seq<LogEntry>)
    ensures |r| <= DashboardErrorLimit
    ensures forall i :: 0 <= i < |r| ==>
      && r[i] in s.logs && r[i].level == "error"
      && InWindow(r[i].timestamp, DashboardWindow, now)
      && (service != [] ==> r[i].service == service)
    ensures forall i, j :: 0 <= i < j < |r| ==> r[i].timestamp >= r[j].timestamp
    ensures forall dropped ::
      (&& dropped in s.logs && service != [] && dropped.service == service && dropped.level == "error"
       && InWindow(dropped.timestamp, DashboardWindow, now) && dropped !in r) ==>
      && |r| == DashboardErrorLimit
      && forall l :: l in r ==> dropped.timestamp <= l.timestamp
  {
    DashboardErrorsAreNewest(s, service, now);
    GetLogs(s, Some(service), Some("error"), DashboardWindow, DashboardErrorLimit, now)
  }

  /** `service_dashboard`: the five first-recorded-value lookups and up to ten recent error logs of `service`. */
  function ServiceDashboard(s: Store, service: string, now: int): (r: Dashboard)
    ensures r.service == service
    ensures r.metrics.requestsPerMinute == FindMetric(Filter(s.metrics, LastHour(now)), service + ".requests_per_minute")
    ensures r.metrics.errorRate == FindMetric(Filter(s.metrics, LastHour(now)), service + ".error_rate")
    ensures r.metrics.p50Latency == FindMetric(Filter(s.metrics, LastHour(now)), service + ".p50_latency_ms")
    ensures r.metrics.p95Latency == FindMetric(Filter(s.metrics, LastHour(now)), service + ".p95_latency_ms")
    ensures r.metrics.p99Latency == FindMetric(Filter(s.metrics, LastHour(now)), service + ".p99_latency_ms")
    ensures r.metrics.requestsPerMinute.None? <==> !HasRecentReading(s, service + ".requests_per_minute", now)
    ensures r.metrics.errorRate.None? <==> !HasRecentReading(s, service + ".error_rate", now)
    ensures r.metrics.p50Latency.None? <==> !HasRecentReading(s, service + ".p50_latency_ms", now)
    ensures r.metrics.p95Latency.None? <==> !HasRecentReading(s, service + ".p95_latency_ms", now)
    ensures r.metrics.p99Latency.None? <==> !HasRecentReading(s, service + ".p99_latency_ms", now)
    ensures |r.recentErrors| <= DashboardErrorLimit
    ensures forall i :: 0 <= i < |r.recentErrors| ==>
      && r.recentErrors[i] in s.logs && r.recentErrors[i].level == "error"
      && InWindow(r.recentErrors[i].timestamp, DashboardWindow, now)
      && (service != [] ==> r.recentErrors[i].service == service)
    ensures forall i, j :: 0 <= i < j < |r.recentErrors| ==> r.recentErrors[i].timestamp >= r.recentErrors[j].timestamp
    ensures forall dropped ::
      (&& dropped in s.logs && service != [] && dropped.service == service && dropped.level == "error"
       && InWindow(dropped.timestamp, DashboardWindow, now) && dropped !in r.recentErrors) ==>
      && |r.recentErrors| == DashboardErrorLimit
      && forall l :: l in r.recentErrors ==> dropped.timestamp <= l.timestamp
  {
    Dashboard(service, ServiceMetrics(s, service, now), RecentErrors(s, service, now))
  }
}

=== FILE: scenarios.dfy ===
/**
 Properties that relate a write to the queries that read it back: what a recorded
 reading, a started span or an ended span looks like to the read path.
 */
module Scenarios {
  import opened Wrappers
  import opened Telemetry
  import opened Seqs
  import opened Ingestion
  import opened Traces
  import opened Queries
  import opened Alerts

  /**
   A reading recorded at `now` is the only change to every metric query issued at
   `now`: it is appended when the window is non-empty and the name filter admits it.
   */
  lemma RecordThenGetMetrics(s: Store, id: string, name: string, value: real, labels: map<string, string>,
                             kind: string, now: int, query: Option<string>, sinceMinutes: int)
    requires RecordMetric(s, id, name, value, labels, kind, now).Ok?
    ensures GetMetrics(RecordMetric(s, id, name, value, labels, kind, now).value, query, map[], sinceMinutes, now)
         == GetMetrics(s, query, map[], sinceMinutes, now)
            + (if sinceMinutes > 0 && NameMatches(query, name) then [Metric(id, name, value, labels, now, kind)] else [])
  {
    var s' := RecordMetric(s, id, name, value, labels, kind, now).value;
    var row := Metric(id, name, value, labels, now, kind);
    var selected := MetricSelector(query, sinceMinutes, now);
    assert s'.metrics == s.metrics + [row];
    FilterAppend(s.metrics, [row], selected);
    FilterOne(row, selected);
    assert selected(row) <==> sinceMinutes > 0 && NameMatches(query, name);
  }

  /** Two increments are two rows of 1.0, not one summed row. */
  lemma IncrementTwiceKeepsTwoRows(id1: string, id2: string, name: string, labels1: map<string, string>,
                                   labels2: map<string, string>, t1: int, t2: int, sinceMinutes: int)
    requires id1 != id2
    requires t1 <= t2 && InWindow(t1, sinceMinutes, t2)
    ensures Increment(EmptyStore, id1, name, labels1, t1).Ok?
    ensures Increment(Increment(EmptyStore, id1, name, labels1, t1).value, id2, name, labels2, t2).Ok?
    ensures GetMetrics(Increment(Increment(EmptyStore, id1, name, labels1, t1).value, id2, name, labels2, t2).value,
                       Some(name), map[], sinceMinutes, t2)
         == [Metric(id1, name, 1.0, labels1, t1, "counter"), Metric(id2, name, 1.0, labels2, t2, "counter")]
  {
    var r1 := Metric(id1, name, 1.0, labels1, t1, "counter");
    var r2 := Metric(id2, name, 1.0, labels2, t2, "counter");
    var s1 := Increment(EmptyStore, id1, name, labels1, t1).value;
    var s2 := Increment(s1, id2, name, labels2, t2).value;
    assert s1.metrics == [r1];
    assert s2.metrics == [r1, r2];
    ContainsPrefix(name, []);
    assert name + [] == name;
    FilterKeepsAll([r1, r2], MetricSelector(Some(name), sinceMinutes, t2));
  }

  /** Starting a span of a new trace makes the trace hold exactly that one in-flight span. */
  lemma StartThenGetTrace(s: Store, service: string, operation: string, parentSpanId: Option<string>,
                          freshTraceId: string, spanId: string, startedAt: int, now: int)
    requires forall sp :: sp in s.spans ==> sp.traceId != freshTraceId
    requires StartSpan(s, service, operation, None, parentSpanId, freshTraceId, spanId, startedAt).Ok?
    ensures GetTrace(StartSpan(s, service, operation, None, parentSpanId, freshTraceId, spanId, startedAt).value,
                     freshTraceId, now).spans
         == [Span(freshTraceId, spanId, parentSpanId, service, operation, startedAt, None, "ok", map[])]
  {
    var s' := StartSpan(s, service, operation, None, parentSpanId, freshTraceId, spanId, startedAt).value;
    var sp := Span(freshTraceId, spanId, parentSpanId, service, operation, startedAt, None, "ok", map[]);
    assert s'.spans == s.spans + [sp];
    TraceOfAppended(s.spans, sp, freshTraceId);
  }

  /** The spans of a trace whose only span is appended last. */
  lemma TraceOfAppended(spans: seq<Span>, sp: Span, traceId: string)
    requires forall x :: x in spans ==> x.traceId != traceId
    requires sp.traceId == traceId
    ensures Filter(spans + [sp], InTrace(traceId)) == [sp]
  {
    FilterAppend(spans, [sp], InTrace(traceId));
    assert [sp][1..] == [];
  }

  /**
   Ending that span later leaves it the trace's only span, now closed, with a
   duration of the milliseconds between its start and its end.
   */
  lemma EndThenGetTrace(s: Store, service: string, operation: string, parentSpanId: Option<string>,
                        freshTraceId: string, spanId: string, startedAt: int,
                        status: string, tags: map<string, string>, endedAt: int, now: int)
    requires forall sp :: sp in s.spans ==> sp.traceId != freshTraceId
    requires StartSpan(s, service, operation, None, parentSpanId, freshTraceId, spanId, startedAt).Ok?
    ensures GetTrace(EndSpan(StartSpan(s, service, operation, None, parentSpanId, freshTraceId, spanId, startedAt).value,
                             spanId, status, tags, endedAt), freshTraceId, now).spans
         == [Span(freshTraceId, spanId, parentSpanId, service, operation, startedAt, Some(endedAt), status, tags)]
    ensures GetTrace(EndSpan(StartSpan(s, service, operation, None, parentSpanId, freshTraceId, spanId, startedAt).value,
                             spanId, status, tags, endedAt), freshTraceId, now).waterfall
         == [WaterfallEntry(service, operation, MillisBetween(startedAt, endedAt), status)]
  {
    var s1 := StartSpan(s, service, operation, None, parentSpanId, freshTraceId, spanId, startedAt).value;
    var s2 := EndSpan(s1, spanId, status, tags, endedAt);
    var open := Span(freshTraceId, spanId, parentSpanId, service, operation, startedAt, None, "ok", map[]);
    var closed := Span(freshTraceId, spanId, parentSpanId, service, operation, startedAt, Some(endedAt), status, tags);
    assert closed == Closed(open, status, tags, endedAt);
    assert s1.spans == s.spans + [open];
    EndSpanOfLastRow(s, s1, open, status, tags, endedAt);
    TraceOfAppended(s.spans, closed, freshTraceId);
    TraceOfSingleSpan(s2, closed, now);
    var t := GetTrace(s2, freshTraceId, now);
    assert t.waterfall == [WaterfallEntry(service, operation, DurationMs(closed, now), status)];
    assert DurationMs(closed, now) == MillisBetween(startedAt, endedAt);
  }

  /** A trace of one span is that span, with one waterfall line for it. */
  lemma TraceOfSingleSpan(s: Store, sp: Span, now: int)
    requires Filter(s.spans, InTrace(sp.traceId)) == [sp]
    ensures GetTrace(s, sp.traceId, now).spans == [sp]
    ensures GetTrace(s, sp.traceId, now).waterfall
         == [WaterfallEntry(sp.service, sp.operation, DurationMs(sp, now), sp.status)]
  {
    var t := GetTrace(s, sp.traceId, now);
    assert t.spans == SortBy([sp], StartTime);
    assert |t.waterfall| == 1;
  }

  /** Ending the span that was appended last closes that row alone. */
  lemma EndSpanOfLastRow(s: Store, s1: Store, last: Span, status: string, tags: map<string, string>, now: int)
    requires s1.spans == s.spans + [last]
    requires !SpanIdTaken(s, last.spanId)
    ensures EndSpan(s1, last.spanId, status, tags, now).spans == s.spans + [Closed(last, status, tags, now)]
  {
    var s2 := EndSpan(s1, last.spanId, status, tags, now);
    forall i | 0 <= i < |s.spans| ensures s2.spans[i] == s.spans[i] {
      assert s1.spans[i] == s.spans[i];
    }
  }

  /** A reading recorded at `now` adds its own violations, and only those, at the end of the alert list. */
  lemma RecordThenAlertRules(s: Store, id: string, name: string, value: real, labels: map<string, string>,
                             kind: string, now: int)
    requires RecordMetric(s, id, name, value, labels, kind, now).Ok?
    ensures AlertRules(RecordMetric(s, id, name, value, labels, kind, now).value, now)
         == AlertRules(s, now) + ReadingViolations(Metric(id, name, value, labels, now, kind))
  {
    var row := Metric(id, name, value, labels, now, kind);
    var before := GetMetrics(s, None, map[], AlertWindow, now);
    RecordThenRecentMetrics(s, id, name, value, labels, kind, now);
    ScanAppend(before, [row]);
    ScanOne(row);
  }

  /** The last five minutes' readings after a write at `now` are those before it plus the new one. */
  lemma RecordThenRecentMetrics(s: Store, id: string, name: string, value: real, labels: map<string, string>,
                                kind: string, now: int)
    requires RecordMetric(s, id, name, value, labels, kind, now).Ok?
    ensures GetMetrics(RecordMetric(s, id, name, value, labels, kind, now).value, None, map[], AlertWindow, now)
         == GetMetrics(s, None, map[], AlertWindow, now) + [Metric(id, name, value, labels, now, kind)]
  {
    RecordThenGetMetrics(s, id, name, value, labels, kind, now, None, AlertWindow);
  }

  /**
   `get_logs()` with no arguments: at most the 100 newest log rows of the last hour, of
   every service and level. A recent row left out means all 100 places are taken by rows
   at least as new.
   */
  lemma GetLogsWithDefaults(s: Store, now: int)
    ensures var r := GetLogs(s, None, None, DefaultSinceMinutes, DefaultLogLimit, now);
      && |r| <= DefaultLogLimit
      && (forall l :: l in r ==> l in s.logs && InWindow(l.timestamp, DefaultSinceMinutes, now))
      && forall l :: l in s.logs && InWindow(l.timestamp, DefaultSinceMinutes, now) && l !in r ==>
           && |r| == DefaultLogLimit
           && forall k :: k in r ==> l.timestamp <= k.timestamp
  {
    var r := GetLogs(s, None, None, DefaultSinceMinutes, DefaultLogLimit, now);
    forall l | l in r ensures l in s.logs && InWindow(l.timestamp, DefaultSinceMinutes, now) {
      var i :| 0 <= i < |r| && r[i] == l;
      assert LogMatches(r[i], None, None, DefaultSinceMinutes, now);
    }
    forall l | l in s.logs && InWindow(l.timestamp, DefaultSinceMinutes, now) && l !in r
      ensures |r| == DefaultLogLimit && forall k :: k in r ==> l.timestamp <= k.timestamp
    {
      assert LogMatches(l, None, None, DefaultSinceMinutes, now);
      GetLogsKeepsNewest(s, None, None, DefaultSinceMinutes, DefaultLogLimit, now, l);
    }
  }

  /** A dashboard over a store that has recorded nothing is all absent values and no errors. */
  lemma DashboardOfEmptyStore(service: string, now: int)
    ensures ServiceDashboard(EmptyStore, service, now)
         == Dashboard(service, DashboardMetrics(None, None, None, None, None), [])
  {
  }

  /**
   A name holding `needle` at offset `i` contains it, and a name lacking a character of
   `other` does not contain `other`: each example name mentions exactly one rule.
   */
  lemma MentionsOnly(name: string, needle: string, i: int, other: string, c: char)
    requires OccursAt(name, needle, i)
    requires c in other && c !in name
    ensures Contains(name, needle) && !Contains(name, other)
  {
    ContainsAt(name, needle);
    if Contains(name, other) {
      CharsOfContained(name, other, c);
    }
  }

  /**
   Which rule each example name mentions. The name is a parameter pinned by `requires`
   rather than a literal in the `ensures`, and each example name has a lemma of its own,
   so that the solver never unfolds `Contains` over two literal strings character by character.
   */
  lemma ErrorRateExampleName(name: string)
    requires name == "gateway.error_rate"
    ensures Contains(name, "error_rate") && !Contains(name, "p99_latency")
  {
    assert OccursAt(name, "error_rate", 8);
    MentionsOnly(name, "error_rate", 8, "p99_latency", '9');
  }

  /** The latency example name, pinned by `requires` for the same reason. */
  lemma LatencyExampleName(name: string)
    requires name == "gateway.p99_latency_ms"
    ensures Contains(name, "p99_latency") && !Contains(name, "error_rate")
  {
    assert OccursAt(name, "p99_latency", 8);
    MentionsOnly(name, "p99_latency", 8, "error_rate", 'r');
  }

  /** The alerts of a store holding recent readings only are those readings' violations in order. */
  lemma AlertRulesOfRecent(ms: seq<Metric>, now: int)
    requires forall m :: m in ms ==> InWindow(m.timestamp, AlertWindow, now)
    ensures AlertRules(Store(ms, [], []), now) == Scan(ms)
  {
    var g := GetMetrics(Store(ms, [], []), None, map[], AlertWindow, now);
    FilterKeepsAll(ms, MetricSelector(None, AlertWindow, now));
  }

  /** A store holding one recent reading alerts on exactly that reading's violations. */
  lemma OneRecentReadingAlerts(m: Metric, now: int)
    requires InWindow(m.timestamp, AlertWindow, now)
    ensures AlertRules(Store([m], [], []), now) == ReadingViolations(m)
  {
    AlertRulesOfRecent([m], now);
    ScanOne(m);
  }

  /** A recent error-rate reading of 10% raises exactly one high-severity violation at 5%. */
  lemma ErrorRateAlertExample(m: Metric, now: int)
    requires m.name == "gateway.error_rate" && m.value == 0.10
    requires InWindow(m.timestamp, AlertWindow, now)
    ensures AlertRules(Store([m], [], []), now) == [Violation("gateway.error_rate", 0.10, 0.05, High)]
  {
    ErrorRateExampleName(m.name);
    OneRecentReadingAlerts(m, now);
  }

  /** A recent p99 latency reading of 600 ms raises exactly one medium-severity violation at 500. */
  lemma LatencyAlertExample(m: Metric, now: int)
    requires m.name == "gateway.p99_latency_ms" && m.value == 600.0
    requires InWindow(m.timestamp, AlertWindow, now)
    ensures AlertRules(Store([m], [], []), now) == [Violation("gateway.p99_latency_ms", 600.0, 500.0, Medium)]
  {
    LatencyExampleName(m.name);
    OneRecentReadingAlerts(m, now);
  }

  /** Recent readings exactly at the thresholds raise nothing. */
  lemma AtThresholdAlertExample(errorRate: Metric, latency: Metric, now: int)
    requires errorRate.name == "gateway.error_rate" && errorRate.value == 0.05
    requires latency.name == "gateway.p99_latency_ms" && latency.value == 500.0
    requires InWindow(errorRate.timestamp, AlertWindow, now) && InWindow(latency.timestamp, AlertWindow, now)
    ensures AlertRules(Store([errorRate, latency], [], []), now) == []
  {
    ErrorRateExampleName(errorRate.name);
    LatencyExampleName(latency.name);
    AlertRulesOfRecent([errorRate, latency], now);
    assert Scan([errorRate, latency]) == ReadingViolations(errorRate) + Scan([latency]);
    assert Scan([latency]) == ReadingViolations(latency) + Scan([]);
  }
}

=== FILE: seqs.dfy ===
/**
 Sequence operations standing in for the SQL clauses the store's queries use:
 `WHERE` is `Filter`, `ORDER BY` is `SortBy`, `LIMIT` is `Limit`, and case-sensitive
 substring containment, `Contains`, stands in for `LIKE '%n%'` on a name (without its
 ASCII case folding and without `%` and `_` inside `n` acting as wildcards).
 */
module Seqs {

  /** The elements of `s` that satisfy `p`, in their original order. */
  function Filter<T(!new)>(s: seq<T>, p: T -> bool): (r: seq<T>)
    ensures |r| <= |s|
    ensures forall i :: 0 <= i < |r| ==> p(r[i])
    ensures forall x :: x in r <==> x in s && p(x)
    ensures forall x :: multiset(r)[x] == if p(x) then multiset(s)[x] else 0
  {
    if |s| == 0 then []
    else
      assert s == [s[0]] + s[1..];
      if p(s[0]) then [s[0]] + Filter(s[1..], p) else Filter(s[1..], p)
  }

  /** Filtering distributes over concatenation, so a row appended to a table is appended to every query over it. */
  lemma {:induction false} FilterAppend<T(!new)>(a: seq<T>, b: seq<T>, p: T -> bool)
    ensures Filter(a + b, p) == Filter(a, p) + Filter(b, p)
  {
    if |a| == 0 {
      assert a + b == b;
    } else {
      assert (a + b)[1..] == a[1..] + b;
      FilterAppend(a[1..], b, p);
    }
  }

  /** Filtering one element keeps it exactly when it passes. */
  lemma FilterOne<T(!new)>(x: T, p: T -> bool)
    ensures Filter([x], p) == if p(x) then [x] else []
  {
    assert [x][1..] == [];
  }

  /** A filter every element passes changes nothing. */
  lemma {:induction false} FilterKeepsAll<T(!new)>(s: seq<T>, p: T -> bool)
    requires forall x :: x in s ==> p(x)
    ensures Filter(s, p) == s
  {
    if |s| > 0 {
      assert s[0] in s;
      assert forall x :: x in s[1..] ==> x in s;
      FilterKeepsAll(s[1..], p);
      assert s == [s[0]] + s[1..];
    }
  }

  /** `s` is in non-decreasing order of `key`. */
  predicate SortedBy<T>(s: seq<T>, key: T -> int) {
    forall i, j :: 0 <= i < j < |s| ==> key(s[i]) <= key(s[j])
  }

  /** Inserts `x` into the sorted `s` in front of every element with an equal or larger key. */
  function Insert<T>(x: T, s: seq<T>, key: T -> int): (r: seq<T>)
    requires SortedBy(s, key)
    ensures |r| == |s| + 1
    ensures r[0] == if |s| == 0 || key(x) <= key(s[0]) then x else s[0]
    ensures SortedBy(r, key)
    ensures multiset(r) == multiset(s) + multiset{x}
  {
    if |s| == 0 then [x]
    else if key(x) <= key(s[0]) then [x] + s
    else
      assert s == [s[0]] + s[1..];
      var rest := Insert(x, s[1..], key);
      assert key(s[0]) <= key(rest[0]);
      [s[0]] + rest
  }

  /** A stable insertion sort: `ORDER BY key ASC`. */
  function SortBy<T>(s: seq<T>, key: T -> int): (r: seq<T>)
    ensures SortedBy(r, key)
    ensures multiset(r) == multiset(s)
    ensures |r| == |s|
  {
    if |s| == 0 then []
    else
      assert s == [s[0]] + s[1..];
      Insert(s[0], SortBy(s[1..], key), key)
  }

  /**
   SQL `LIMIT n`: the first `n` elements, or all of them when there are fewer.
   SQLite reads a negative limit as "no limit".
   */
  function Limit<T>(s: seq<T>, n: int): (r: seq<T>)
    ensures r <= s
    ensures forall i :: 0 <= i < |r| ==> r[i] == s[i]
    ensures multiset(r) <= multiset(s)
    ensures n < 0 ==> r == s
    ensures 0 <= n ==> |r| == if n < |s| then n else |s|
  {
    if n < 0 || |s| <= n then s
    else
      assert s == s[..n] + s[n..];
      s[..n]
  }

  /** `p` is a prefix of `s`. */
  predicate IsPrefix(p: string, s: string) {
    |p| <= |s| && s[..|p|] == p
  }

  /** `needle` occurs as a contiguous substring of `hay` (Python's `needle in hay`). */
  predicate Contains(hay: string, needle: string)
    decreases |hay|
  {
    IsPrefix(needle, hay) || (|hay| > 0 && Contains(hay[1..], needle))
  }

  /** `needle` occurs in `hay` starting at offset `i`. */
  predicate OccursAt(hay: string, needle: string, i: int) {
    0 <= i <= |hay| - |needle| && hay[i..i + |needle|] == needle
  }

  /** `Contains` holds exactly when the needle occurs at some offset. */
  lemma {:induction false} ContainsAt(hay: string, needle: string)
    ensures Contains(hay, needle) <==> exists i :: OccursAt(hay, needle, i)
    decreases |hay|
  {
    if IsPrefix(needle, hay) {
      assert OccursAt(hay, needle, 0);
    } else if |hay| == 0 {
    } else {
      ContainsAt(hay[1..], needle);
      if Contains(hay[1..], needle) {
        var i :| OccursAt(hay[1..], needle, i);
        assert hay[i + 1..i + 1 + |needle|] == hay[1..][i..i + |needle|];
        assert OccursAt(hay, needle, i + 1);
      }
      if exists i :: OccursAt(hay, needle, i) {
        var i :| OccursAt(hay, needle, i);
        assert i != 0;
        assert hay[1..][i - 1..i - 1 + |needle|] == hay[i..i + |needle|];
        assert OccursAt(hay[1..], needle, i - 1);
      }
    }
  }

  /** A string contains each of its prefixes; `"gateway.error_rate"` contains `"gateway"`. */
  lemma ContainsPrefix(p: string, rest: string)
    ensures Contains(p + rest, p)
  {
    assert (p + rest)[..|p|] == p;
  }

  /** Every character of a contained needle occurs in the haystack. */
  lemma CharsOfContained(hay: string, needle: string, c: char)
    requires Contains(hay, needle)
    requires c in needle
    ensures c in hay
  {
    ContainsAt(hay, needle);
    var i :| OccursAt(hay, needle, i);
    var k :| 0 <= k < |needle| && needle[k] == c;
    assert hay[i + k] == c;
  }
}

=== FILE: telemetry.dfy ===
/**
 The telemetry data model: metric, span and log rows, and the store that holds them.
 The store keeps one sequence per table, in insertion order. Instants are integers
 counting microseconds. The stored `isoformat()` text drops the fraction when the
 microsecond is zero; that short form is a prefix of the long forms of the same second,
 so comparing the text still orders the instants chronologically.
 */
module Telemetry {
  import opened Wrappers

  /** Microseconds in one minute: a `since_minutes` window is this many times wider. */
  const MicrosPerMinute: int := 60_000_000

  /** A value in a log entry's free-form `fields`. */
  datatype FieldValue = Text(text: string) | Number(number: real) | Flag(flag: bool)

  /** One metric reading. `kind` is the metric type: "counter", "gauge" or "histogram" by convention, unchecked. */
  datatype Metric = Metric(
    id: string,
    name: string,
    value: real,
    labels: map<string, string>,
    timestamp: int,
    kind: string)

  /** One span of a trace; `spanId` is the table's primary key and `endTs` is absent while in flight. */
  datatype Span = Span(
    traceId: string,
    spanId: string,
    parentSpanId: Option<string>,
    service: string,
    operation: string,
    startTs: int,
    endTs: Option<int>,
    status: string,
    tags: map<string, string>)

  /** One log entry; `traceId` is an optional correlation key that is never validated. */
  datatype LogEntry = LogEntry(
    id: string,
    service: string,
    level: string,
    message: string,
    timestamp: int,
    traceId: Option<string>,
    fields: map<string, FieldValue>)

  /** The three tables, each in insertion order. */
  datatype Store = Store(metrics: seq<Metric>, spans: seq<Span>, logs: seq<LogEntry>)

  /**
   The model's starting point: a store with no rows. The running program never presents
   this state, because its constructor always records sample readings into a database
   file that also keeps earlier runs' rows.
   */
  const EmptyStore: Store := Store([], [], [])

  /** An instant lies strictly after the cut-off `now - sinceMinutes` minutes. */
  predicate InWindow(ts: int, sinceMinutes: int, now: int) {
    ts > now - sinceMinutes * MicrosPerMinute
  }

  predicate MetricIdTaken(s: Store, id: string) {
    exists i :: 0 <= i < |s.metrics| && s.metrics[i].id == id
  }

  predicate SpanIdTaken(s: Store, spanId: string) {
    exists i :: 0 <= i < |s.spans| && s.spans[i].spanId == spanId
  }

  predicate LogIdTaken(s: Store, id: string) {
    exists i :: 0 <= i < |s.logs| && s.logs[i].id == id
  }

  /** Every table's primary key is unique. */
  predicate UniqueKeys(s: Store) {
    && (forall i, j :: 0 <= i < j < |s.metrics| ==> s.metrics[i].id != s.metrics[j].id)
    && (forall i, j :: 0 <= i < j < |s.spans| ==> s.spans[i].spanId != s.spans[j].spanId)
    && (forall i, j :: 0 <= i < j < |s.logs| ==> s.logs[i].id != s.logs[j].id)
  }

  /** Nothing is stamped after `now`, and every ended span ended no earlier than it started. */
  predicate Chronological(s: Store, now: int) {
    && (forall m :: m in s.metrics ==> m.timestamp <= now)
    && (forall sp :: sp in s.spans ==> sp.startTs <= now)
    && (forall sp :: sp in s.spans && sp.endTs.Some? ==> sp.startTs <= sp.endTs.value <= now)
    && (forall l :: l in s.logs ==> l.timestamp <= now)
  }

  /** The invariant every reachable store satisfies at the current instant. */
  predicate Wellformed(s: Store, now: int) {
    UniqueKeys(s) && Chronological(s, now)
  }
}

=== FILE: traces.dfy ===
/**
 The trace reconstructor: gathers one trace's spans in start order and annotates
 each with its duration. The waterfall is flat; parent links are stored on the
 spans but not used to nest them.
 */
module Traces {
  import opened Wrappers
  import opened Telemetry
  import opened Seqs

  /** One waterfall line: the span's service, operation, duration in milliseconds and status. */
  datatype WaterfallEntry = WaterfallEntry(service: string, operation: string, durationMs: real, status: string)

  /** The answer to a trace query. */
  datatype Trace = Trace(traceId: string, spans: seq<Span>, waterfall: seq<WaterfallEntry>)

  /** The instant a span's duration runs to: its end, or `now` while it is still in flight. */
  function EndOrNow(sp: Span, now: int): int {
    sp.endTs.GetOr(now)
  }

  /** Milliseconds from instant `a` to instant `b`, exactly. */
  function MillisBetween(a: int, b: int): real {
    (b - a) as real / 1000.0
  }

  /** Milliseconds from a span's start to its end (or to `now` while in flight). */
  function DurationMs(sp: Span, now: int): (r: real)
    ensures r * 1000.0 == (EndOrNow(sp, now) - sp.startTs) as real
    ensures sp.endTs.None? ==> r * 1000.0 == (now - sp.startTs) as real
    ensures sp.endTs.Some? ==> r * 1000.0 == (sp.endTs.value - sp.startTs) as real
    ensures 0.0 <= r <==> sp.startTs <= EndOrNow(sp, now)
  {
    MillisBetween(sp.startTs, EndOrNow(sp, now))
  }

  /** The waterfall view of `spans`: one entry per span, in the same order. */
  function Waterfall(spans: seq<Span>, now: int): (r: seq<WaterfallEntry>)
    ensures |r| == |spans|
    ensures forall i :: 0 <= i < |spans| ==>
      && r[i].service == spans[i].service
      && r[i].operation == spans[i].operation
      && r[i].status == spans[i].status
      && r[i].durationMs == DurationMs(spans[i], now)
  {
    if |spans| == 0 then []
    else
      var sp := spans[0];
      [WaterfallEntry(sp.service, sp.operation, DurationMs(sp, now), sp.status)] + Waterfall(spans[1..], now)
  }

  /** The `WHERE trace_id = ?` clause as a row predicate. */
  function InTrace(traceId: string): Span -> bool {
    (sp: Span) => sp.traceId == traceId
  }

  /** The `ORDER BY start_ts` sort key. */
  function StartTime(sp: Span): int {
    sp.startTs
  }

  /** The `SELECT ... WHERE trace_id = ? ORDER BY start_ts ASC` part of `get_trace`. */
  function TraceSpans(s: Store, traceId: string): (r: seq<Span>)
    ensures forall sp :: multiset(r)[sp] == if sp.traceId == traceId then multiset(s.spans)[sp] else 0
    ensures forall i, j :: 0 <= i < j < |r| ==> r[i].startTs <= r[j].startTs
    ensures r == [] <==> forall sp :: sp in s.spans ==> sp.traceId != traceId
  {
    var members := Filter(s.spans, InTrace(traceId));
    var spans := SortBy(members, StartTime);
    assert forall sp :: InTrace(traceId)(sp) == (sp.traceId == traceId);
    assert multiset(spans) == multiset(members);
    assert SortedBy(spans, StartTime);
    assert spans == [] <==> members == [] by {
      if members != [] {
        assert members[0] in multiset(spans);
      }
    }
    spans
  }

  /** `get_trace`: the spans of `traceId` ordered by start time, with their waterfall. */
  function GetTrace(s: Store, traceId: string, now: int): (r: Trace)
    ensures r.traceId == traceId
    ensures forall sp :: multiset(r.spans)[sp] == if sp.traceId == traceId then multiset(s.spans)[sp] else 0
    ensures forall i, j :: 0 <= i < j < |r.spans| ==> r.spans[i].startTs <= r.spans[j].startTs
    ensures |r.waterfall| == |r.spans|
    ensures forall i :: 0 <= i < |r.spans| ==>
      && r.waterfall[i].service == r.spans[i].service
      && r.waterfall[i].operation == r.spans[i].operation
      && r.waterfall[i].status == r.spans[i].status
      && r.waterfall[i].durationMs == DurationMs(r.spans[i], now)
    ensures r.spans == [] <==> forall sp :: sp in s.spans ==> sp.traceId != traceId
  {
    var spans := TraceSpans(s, traceId);
    Trace(traceId, spans, Waterfall(spans, now))
  }

  /** Re-querying later leaves ended spans' durations alone and strictly lengthens in-flight ones. */
  lemma {:induction false} InFlightDurationGrows(s: Store, traceId: string, now1: int, now2: int)
    requires now1 < now2
    ensures |GetTrace(s, traceId, now1).waterfall| == |GetTrace(s, traceId, now2).waterfall|
    ensures forall i :: 0 <= i < |GetTrace(s, traceId, now1).spans| ==>
      var sp := GetTrace(s, traceId, now1).spans[i];
      && (sp.endTs.Some? ==> GetTrace(s, traceId, now2).waterfall[i].durationMs == GetTrace(s, traceId, now1).waterfall[i].durationMs)
      && (sp.endTs.None? ==> GetTrace(s, traceId, now2).waterfall[i].durationMs > GetTrace(s, traceId, now1).waterfall[i].durationMs)
  {
    assert GetTrace(s, traceId, now1).spans == GetTrace(s, traceId, now2).spans;
  }

  /** In a chronological store no waterfall duration is negative. */
  lemma DurationsNonNegative(s: Store, traceId: string, now: int)
    requires Chronological(s, now)
    ensures forall i :: 0 <= i < |GetTrace(s, traceId, now).waterfall| ==>
      GetTrace(s, traceId, now).waterfall[i].durationMs >= 0.0
  {
    var t := GetTrace(s, traceId, now);
    forall i | 0 <= i < |t.waterfall| ensures t.waterfall[i].durationMs >= 0.0 {
      assert t.spans[i] in multiset(t.spans);
      assert t.spans[i] in s.spans;
    }
  }
}

=== FILE: wrappers.dfy ===
/** Option and Result types shared by the telemetry model. */
module Wrappers {

  /** A possibly absent value; Python's `None` is `None` here. */
  datatype Option<+T> = None | Some(value: T) {

    /** The value if present, otherwise `default`. */
    function GetOr(default: T): T {
      match this
      case Some(v) => v
      case None => default
    }
  }

  /** Write failures. A primary key that is already taken is the only write failure modelled. */
  datatype Error = DuplicateKey(key: string)

  /** The outcome of a write: the new store, or the error the insert raised. */
  datatype Result<+T> = Ok(value: T) | Err(error: Error)
}
